=== FILE: README.md ===
# Geofence triggers and the monster tick of a browser location game

This project models the decision logic of `main.js`, a browser location game. A
watched device position is checked against a list of points of interest ("places").
Each place is a named circle of `radius` metres. Entering a circle raises an Enter
event, which in the program plays a sound and shows a message. Leaving it raises an
Exit event. A timer drives a "monster" whose threat distance in [0, 10] rises when
the player idles or is far from every place, and falls otherwise.

Three Dafny modules follow the three parts of that logic:

- `Geo` (geo.dfy): coordinates, places, and the distance function. The haversine
  trigonometry is a function-valued parameter `raw: Metric`. Nothing is assumed
  about it. Only the clamp `Math.min(10, Math.max(0, d))` applied to its result is
  modelled, and that clamp is what every comparison in the program sees.
- `GeoTrigger` (geotrigger.dfy): one position sample (`Step`). The places are
  visited in list order and a set of triggered names is threaded through the
  visits. The module also gives an order-free reference definition, and covers a
  stream of samples (`Run`).
- `Monster` (monster.dfy): one timer tick (`Tick`) on `{distance, lastMoveTime,
  lastPosition}`, plus the rules it combines and a sequence of ticks (`RunTicks`).

Browser state becomes parameters. The settings record that has not loaded yet and
the player marker that does not exist yet are `Option` values. `Date.now()` is an
integer millisecond `now`. The `places` array is a `seq<Place>`. JavaScript numbers
are modelled as `real`.

Behaviour of the code that the model keeps:

- Every distance is clamped to [0, 10] metres (main.js:88), so every comparison
  sees the clamped value.
- A place whose radius is above 10 covers every position whose haversine value
  is a number. A NaN value is not modelled; see "## Left out".
- A distance exactly equal to the radius counts as outside.
- Movement is detected exactly when the raw distance exceeds 2 metres. The
  clamp ceiling of 10 is above that floor.
- Rule 2 ("far from every goal") can fire for a non-empty place list only when
  the threshold is below 10. For an empty list it always fires, because the scan
  starts from `Infinity`, modelled as `None`.
- The idle clock starts when the page loads (main.js:151), not when the first
  position arrives.
- Approaching caps the distance at `maxDistance` (main.js:229), so an approaching
  tick pulls a distance above `maxDistance` down to it. The monster starts at 10
  (main.js:149), so with `maxDistance` below 10 the first approaching tick lowers
  the threat.
- Movement needs a displacement strictly greater than 2 metres, so exactly 2.0 is
  not movement.
- The events are edge-triggered per place name. When two places share a name, the
  last of them in the list decides whether that name is triggered. With duplicate
  names, re-evaluating at the same position can emit Enter and Exit again. That is
  why the idempotence and reference lemmas require unique names.

## Model

| member | source | states |
|---|---|---|
| Geo.Clamp | main.js:88 | the result lies in [0, 10], equals the input when the input is already in range, is 0 below the range and 10 above it |
| Geo.Distance | main.js:72-89 | for any real haversine value (NaN is not modelled), the distance is in [0, 10], and it equals the haversine value whenever that value is in [0, 10] |
| Geo.Inside | main.js:114-115 | a radius above 10 contains every position, a non-positive radius none, a distance equal to the radius is outside, and for radii in (0, 10] inside means the raw distance is below the radius |
| GeoTrigger.Visit | main.js:117-135 | after visiting a place its name is triggered iff the player is inside it, no other name changes, Enter is emitted iff inside and previously untriggered, Exit iff outside and previously triggered, and nothing otherwise |
| GeoTrigger.Step | main.js:113-136 | names that belong to no place keep their membership and appear in no event |
| GeoTrigger.LastPlaceDecides | main.js:113-133 | after a sample, the last place carrying a name decides that name: triggered iff the player is strictly inside that place, even when names repeat |
| GeoTrigger.StepMatchesReference | main.js:113-136 | with unique names the sequential loop equals the reference: new set = old set with each place's name set to inside-or-not; events = each place's own transition judged against the old set |
| GeoTrigger.EdgeTriggered | main.js:117-135 | with unique names, Enter for a place is emitted iff its name was untriggered and the player is inside; Exit iff it was triggered and the player is outside |
| GeoTrigger.StepIdempotent | main.js:113-136 | with unique names, evaluating again at the same position leaves the triggered set unchanged and emits no event |
| GeoTrigger.StepOrderIrrelevant | main.js:113-136 | with unique names, two lists holding the same places give the same new triggered set |
| GeoTrigger.Run | main.js:97-136 | successive position callbacks share the triggered set: names of no place never change or appear in an event, and after a non-empty track the last place of each name is triggered iff the final sample lies inside it |
| GeoTrigger.SingleGeofenceAlternates | main.js:97-136 | for one place starting outside, the events along any track of samples alternate Enter, Exit, Enter, ..., and the place is triggered iff an odd number of events was emitted |
| Monster.Init | main.js:148-154 | the monster starts at the top of the range (10) with no recorded position, and its idle clock starts at the load instant |
| Monster.Moved | main.js:193-203 | movement is recognised iff a previous position exists and the raw displacement is strictly above 2 metres |
| Monster.IdleMinutes | main.js:205 | the idle time in minutes times 60000 equals the milliseconds elapsed since the last move |
| Monster.NearestGoal | main.js:207-212 | no value (Infinity) iff there are no places; otherwise a value no larger than the distance to any place and equal to the distance to some place |
| Monster.FarFromGoals | main.js:222-225 | rule 2 holds iff every place is farther than the threshold (so always for no places), and never for a non-empty list when the threshold is 10 or more |
| Monster.Approaching | main.js:193-225 | approaching iff (not moved and idle time in milliseconds exceeds the threshold in minutes times 60000) or every place is farther than the far threshold |
| Monster.NextDistance | main.js:227-235 | the result is in [0, 10]; approaching never exceeds max(0, maxDistance), never decreases an in-range distance at most maxDistance when the speed is non-negative, and strictly increases it below the caps when the speed is positive; retreating never increases, strictly decreases a positive distance with a positive speed, and floors at 0; where no cap or floor applies the distance moves by exactly `approachSpeed` or `retreatSpeed`, an approach that reaches a `maxDistance` in [0, 10] lands exactly on it, and an approach that reaches 10 with `maxDistance` at 10 or more lands exactly on 10 |
| Monster.Tick | main.js:187-250 | without settings or a position the state is unchanged and no warning shows; otherwise distance in [0, 10], last position = current, last-move time = now iff moved (else unchanged), warning iff distance > 0.8 maxDistance, the new distance is exactly the update rule applied to the old one, retreat never raises an in-range distance, approach never lowers an in-range distance at most maxDistance, and approach from above a non-negative maxDistance lands on it (clamped to 10) |
| Monster.RunTicks | main.js:181-250 | over any sequence of timer ticks with any settings, an in-range distance stays in [0, 10]; ticks without settings or a position leave the monster unchanged; the last-move time and last position are always the initial ones or those of some tick |
| Monster.StandingStillKeepsIdleClock | main.js:193-241 | a player whose every position is within 2 metres of the previous one (the first of the recorded position) never refreshes the last-move time, and the recorded position is the latest sample |
| Monster.IdlePlayerIsApproached | main.js:205-241 | with fixed settings, a non-negative approach speed, positions that only jitter within 2 metres of the previous one, and an idle time past the threshold on every tick, the distance never drops below its starting value and never exceeds maxDistance |
| Monster.RunTicksBelowMax | main.js:227-235 | with fixed settings and a non-negative retreat speed, a distance that starts in range and at most maxDistance stays in range and at most maxDistance over any sequence of ticks |
| Monster.LastIdleTickClimbs | main.js:205-235 | under the hypotheses of IdlePlayerIsApproached on a non-empty run, the last tick leaves the distance at least where the earlier ticks left it, and strictly higher if that was below both maxDistance and 10 and the approach speed is positive |
| Monster.IdleTicksClimb | main.js:205-235 | under the hypotheses of IdlePlayerIsApproached, every tick of the run leaves the distance at least where the previous tick left it, and strictly higher while it is below both maxDistance and 10 and the approach speed is positive |

## Left out

- Haversine trigonometry (main.js:73-85): floating-point `sin`, `cos`, `atan2` and `sqrt` are not modelled. The raw distance is an arbitrary function, so symmetry and zero distance for coincident points are not stated.
- NaN distances: the haversine intermediate `a` is not clamped into [0, 1] (main.js:79-83), so rounding can make `Math.sqrt(1 - a)` NaN. A NaN passes through the clamp at main.js:88, is never inside a geofence (main.js:115) and never becomes the nearest goal (main.js:211). The raw distance here is a real number, so this case is not modelled.
- Floating-point arithmetic: all numbers are `real`. Rounding in `(now - lastMoveTime) / 1000 / 60` and in `maxDistance * 0.8`, NaN and infinite settings, and `toFixed(2)` formatting are not modelled.
- Settings given as JSON strings rather than numbers would make `+` concatenate in JavaScript. The settings are taken to be numbers.
- Map, tiles, markers and circles (main.js:4-9, 37-43, 101-110): third-party UI library.
- Fetching and parsing `version.json`, `places.json` and `monster_settings.json` (main.js:14-21, 30-51, 157-163): network I/O. Places and settings are inputs.
- Audio preloading and playback (main.js:46-49, 122-126): browser media. Places carry no sound field. An Enter event stands for the playback request and the message. The program always builds an audio object, even for a place without a sound.
- `showMessage`, console logging and the monster's display element (main.js:56-67, 120, 134, 165-178, 244): DOM side effects. The warning at main.js:247 is the boolean `warning`.
- The geolocation watch, its error callback and the `setInterval` scheduling with `updateIntervalSeconds` (main.js:97, 138-142, 163, 181): sensor and timer plumbing. Each callback invocation is one call of `Step` or `Tick`. `updateIntervalSeconds` is kept in `Config` but has no effect in the model.
- GeoTrigger.StepMatchesReference, GeoTrigger.EdgeTriggered, GeoTrigger.StepIdempotent, GeoTrigger.StepOrderIrrelevant: these require unique place names. The program does not check names for uniqueness. For duplicate names, the other members still apply, among them `GeoTrigger.Visit`, `GeoTrigger.Step`, `GeoTrigger.LastPlaceDecides`, `GeoTrigger.Run` and `GeoTrigger.SingleGeofenceAlternates`.

=== FILE: geo.dfy ===
/** Shared vocabulary of the geofence engine and the monster simulation:
    coordinates, points of interest and the clamped distance function. */
module Geo {

  /** An optional value; `None` stands for JavaScript's `null` (and, for a
      distance, for `Infinity`). */
  datatype Option<T> = None | Some(value: T)

  /** A latitude/longitude pair in degrees. */
  datatype Coord = Coord(lat: real, lon: real)

  /** A point of interest: a named circular geofence of `radius` metres. */
  datatype Place = Place(name: string, lat: real, lon: real, radius: real) {
    function Centre(): Coord {
      Coord(lat, lon)
    }
  }

  /** The unclamped great-circle (haversine) distance in metres between two
      coordinates. The trigonometry is floating-point work that is not
      modelled, so every operation takes it as a parameter and nothing is
      assumed about it. */
  type Metric = (Coord, Coord) -> real

  /** The ceiling every distance is clamped to. */
  const ClampMetres: real := 10.0

  /** `Math.min` and `Math.max` on numbers. */
  function Min(a: real, b: real): real {
    if a <= b then a else b
  }

  function Max(a: real, b: real): real {
    if a >= b then a else b
  }

  /** `Math.min(10, Math.max(0, x))`: the value nearest to `x` in [0, 10]. */
  function Clamp(x: real): (c: real)
    ensures 0.0 <= c <= ClampMetres
    ensures 0.0 <= x <= ClampMetres ==> c == x
    ensures x < 0.0 ==> c == 0.0
    ensures x > ClampMetres ==> c == ClampMetres
  {
    Min(ClampMetres, Max(0.0, x))
  }

  /** The distance the program uses everywhere: the haversine value clamped
      into [0, 10] metres. */
  function Distance(raw: Metric, a: Coord, b: Coord): (d: real)
    ensures 0.0 <= d <= ClampMetres
    ensures 0.0 <= raw(a, b) <= ClampMetres ==> d == raw(a, b)
    ensures raw(a, b) < 0.0 ==> d == 0.0
    ensures raw(a, b) > ClampMetres ==> d == ClampMetres
  {
    Clamp(raw(a, b))
  }

  /** Whether `pos` lies strictly inside the geofence of `p`. Because the
      distance is clamped, a radius above 10 metres covers every position
      and a non-positive radius covers none. */
  predicate Inside(raw: Metric, pos: Coord, p: Place)
    ensures p.radius > ClampMetres ==> Inside(raw, pos, p)
    ensures p.radius <= 0.0 ==> !Inside(raw, pos, p)
    ensures Distance(raw, pos, p.Centre()) == p.radius ==> !Inside(raw, pos, p)
    ensures 0.0 < p.radius <= ClampMetres ==> (Inside(raw, pos, p) <==> raw(pos, p.Centre()) < p.radius)
  {
    Distance(raw, pos, p.Centre()) < p.radius
  }
}

=== FILE: geotrigger.dfy ===
/** The geofence trigger engine: each position sample is checked against
    every point of interest, and a set of "triggered" place names tracks
    which geofences the player is currently inside. Events are edge
    triggered: Enter on the outside-to-inside transition, Exit on the
    inside-to-outside one, nothing while the state persists. */
module GeoTrigger {
  import opened Geo

  datatype Event = Enter(name: string) | Exit(name: string)

  /** The triggered set after an evaluation, and the events it emitted in
      order. */
  datatype StepResult = StepResult(triggered: set<string>, events: seq<Event>)

  /** The names of all places in the list. */
  function Names(places: seq<Place>): set<string>
    decreases |places|
  {
    if |places| == 0 then {} else {places[0].name} + Names(places[1..])
  }

  /** A name is in `Names(places)` exactly when some place carries it. */
  lemma {:induction false} NamesMembers(places: seq<Place>, n: string)
    ensures n in Names(places) <==> exists i :: 0 <= i < |places| && places[i].name == n
    decreases |places|
  {
    if |places| > 0 {
      NamesMembers(places[1..], n);
      assert forall i :: 1 <= i < |places| ==> places[i] == places[1..][i - 1];
    }
  }

  /** The names of the places whose geofence contains `pos`. */
  function InsideNames(raw: Metric, pos: Coord, places: seq<Place>): set<string>
    decreases |places|
  {
    if |places| == 0 then {}
    else (if Inside(raw, pos, places[0]) then {places[0].name} else {}) + InsideNames(raw, pos, places[1..])
  }

  /** A name is in `InsideNames` exactly when some place carrying it
      contains the position. */
  lemma {:induction false} InsideNamesMembers(raw: Metric, pos: Coord, places: seq<Place>, n: string)
    ensures n in InsideNames(raw, pos, places) <==>
            exists i :: 0 <= i < |places| && places[i].name == n && Inside(raw, pos, places[i])
    decreases |places|
  {
    if |places| > 0 {
      InsideNamesMembers(raw, pos, places[1..], n);
      assert forall i :: 1 <= i < |places| ==> places[i] == places[1..][i - 1];
    }
  }

  /** No two places share a name (names are the keys of the triggered set). */
  predicate UniqueNames(places: seq<Place>) {
    forall i, j :: 0 <= i < j < |places| ==> places[i].name != places[j].name
  }

  /** No later place in the list has the same name as `places[i]`. */
  predicate LastOfName(places: seq<Place>, i: int)
    requires 0 <= i < |places|
  {
    forall j :: i < j < |places| ==> places[j].name != places[i].name
  }

  /** One iteration of the per-place loop body: a two-state machine for the
      name of `p`, which leaves every other name alone. */
  function Visit(raw: Metric, pos: Coord, p: Place, triggered: set<string>): (r: StepResult)
    ensures p.name in r.triggered <==> Inside(raw, pos, p)
    ensures r.triggered - {p.name} == triggered - {p.name}
    ensures r.events == [Enter(p.name)] <==> Inside(raw, pos, p) && p.name !in triggered
    ensures r.events == [Exit(p.name)] <==> !Inside(raw, pos, p) && p.name in triggered
    ensures r.events == [] <==> (p.name in triggered <==> Inside(raw, pos, p))
  {
    var inside := Inside(raw, pos, p);
    if inside && p.name !in triggered then
      StepResult(triggered + {p.name}, [Enter(p.name)])
    else if !inside && p.name in triggered then
      StepResult(triggered - {p.name}, [Exit(p.name)])
    else
      StepResult(triggered, [])
  }

  /** One position sample: the places are visited in list order, each
      visit seeing the set as left by the previous ones. */
  function Step(raw: Metric, pos: Coord, places: seq<Place>, triggered: set<string>): (r: StepResult)
    // names that belong to no place keep their membership and are never mentioned
    ensures forall n :: n !in Names(places) ==> (n in r.triggered <==> n in triggered)
    ensures forall e :: e in r.events ==> e.name in Names(places)
    decreases |places|
  {
    if |places| == 0 then
      StepResult(triggered, [])
    else
      var first := Visit(raw, pos, places[0], triggered);
      var rest := Step(raw, pos, places[1..], first.triggered);
      StepResult(rest.triggered, first.events + rest.events)
  }

  /** The last place carrying a name decides whether that name is
      triggered after the sample: it is exactly when the player is inside
      that place. A distance equal to the radius therefore untriggers it. */
  lemma {:induction false} LastPlaceDecides(raw: Metric, pos: Coord, places: seq<Place>, triggered: set<string>, i: int)
    requires 0 <= i < |places| && LastOfName(places, i)
    ensures places[i].name in Step(raw, pos, places, triggered).triggered <==> Inside(raw, pos, places[i])
    decreases |places|
  {
    var first := Visit(raw, pos, places[0], triggered);
    if i == 0 {
      NamesMembers(places[1..], places[0].name);
    } else {
      assert places[1..][i - 1] == places[i];
      assert LastOfName(places[1..], i - 1);
      LastPlaceDecides(raw, pos, places[1..], first.triggered, i - 1);
    }
  }

  /** `LastPlaceDecides` for every place at once. */
  lemma LastPlacesDecide(raw: Metric, pos: Coord, places: seq<Place>, triggered: set<string>)
    ensures forall i :: 0 <= i < |places| && LastOfName(places, i) ==>
              (places[i].name in Step(raw, pos, places, triggered).triggered <==> Inside(raw, pos, places[i]))
  {
    forall i | 0 <= i < |places| && LastOfName(places, i)
      ensures places[i].name in Step(raw, pos, places, triggered).triggered <==> Inside(raw, pos, places[i])
    {
      LastPlaceDecides(raw, pos, places, triggered, i);
    }
  }

  /** Reference for the events: every place is visited against the set as
      it was before the sample, independently of the others. */
  function IndependentEvents(raw: Metric, pos: Coord, places: seq<Place>, triggered: set<string>): seq<Event>
    decreases |places|
  {
    if |places| == 0 then []
    else Visit(raw, pos, places[0], triggered).events + IndependentEvents(raw, pos, places[1..], triggered)
  }

  /** An event is among the independent events exactly when some place's
      own transition emits it. */
  lemma {:induction false} IndependentEventsMembers(raw: Metric, pos: Coord, places: seq<Place>, triggered: set<string>, e: Event)
    ensures e in IndependentEvents(raw, pos, places, triggered) <==>
            exists i :: 0 <= i < |places| && e in Visit(raw, pos, places[i], triggered).events
    decreases |places|
  {
    if |places| > 0 {
      IndependentEventsMembers(raw, pos, places[1..], triggered, e);
      if e in IndependentEvents(raw, pos, places[1..], triggered) {
        var i :| 0 <= i < |places[1..]| && e in Visit(raw, pos, places[1..][i], triggered).events;
        assert e in Visit(raw, pos, places[i + 1], triggered).events;
      }
      if exists i :: 0 <= i < |places| && e in Visit(raw, pos, places[i], triggered).events {
        var i :| 0 <= i < |places| && e in Visit(raw, pos, places[i], triggered).events;
        if i > 0 {
          assert places[1..][i - 1] == places[i];
        }
      }
    }
  }

  /** The independent events only depend on the membership of the names
      of the places visited. */
  lemma {:induction false} IndependentEventsFrame(raw: Metric, pos: Coord, places: seq<Place>, s1: set<string>, s2: set<string>)
    requires forall i :: 0 <= i < |places| ==> (places[i].name in s1 <==> places[i].name in s2)
    ensures IndependentEvents(raw, pos, places, s1) == IndependentEvents(raw, pos, places, s2)
    decreases |places|
  {
    if |places| > 0 {
      assert forall i :: 1 <= i < |places| ==> places[i] == places[1..][i - 1];
      IndependentEventsFrame(raw, pos, places[1..], s1, s2);
    }
  }

  /** With unique names the sequential loop agrees with the reference:
      the new set is the old one with every place's name set to whether
      the player is inside it, and the events are each place's own
      transition against the old set. */
  lemma {:induction false} StepMatchesReference(raw: Metric, pos: Coord, places: seq<Place>, triggered: set<string>)
    requires UniqueNames(places)
    ensures Step(raw, pos, places, triggered) ==
            StepResult((triggered - Names(places)) + InsideNames(raw, pos, places),
                       IndependentEvents(raw, pos, places, triggered))
    decreases |places|
  {
    if |places| > 0 {
      var p := places[0];
      var first := Visit(raw, pos, p, triggered);
      assert UniqueNames(places[1..]);
      StepMatchesReference(raw, pos, places[1..], first.triggered);
      assert p.name !in Names(places[1..]) by {
        NamesMembers(places[1..], p.name);
      }
      IndependentEventsFrame(raw, pos, places[1..], first.triggered, triggered);
      var rest := Step(raw, pos, places[1..], first.triggered);
      assert Step(raw, pos, places, triggered) == StepResult(rest.triggered, first.events + rest.events);
      assert first.events + rest.events == IndependentEvents(raw, pos, places, triggered);
    }
  }

  /** Edge triggering: with unique names, Enter is emitted for a name
      exactly when it was not triggered and the player is inside its place,
      Exit exactly when it was triggered and the player is outside. */
  lemma {:induction false} EdgeTriggered(raw: Metric, pos: Coord, places: seq<Place>, triggered: set<string>)
    requires UniqueNames(places)
    ensures forall i :: 0 <= i < |places| ==>
              (Enter(places[i].name) in Step(raw, pos, places, triggered).events <==>
               places[i].name !in triggered && Inside(raw, pos, places[i]))
    ensures forall i :: 0 <= i < |places| ==>
              (Exit(places[i].name) in Step(raw, pos, places, triggered).events <==>
               places[i].name in triggered && !Inside(raw, pos, places[i]))
  {
    StepMatchesReference(raw, pos, places, triggered);
    forall i | 0 <= i < |places|
      ensures Enter(places[i].name) in IndependentEvents(raw, pos, places, triggered) <==>
              places[i].name !in triggered && Inside(raw, pos, places[i])
      ensures Exit(places[i].name) in IndependentEvents(raw, pos, places, triggered) <==>
              places[i].name in triggered && !Inside(raw, pos, places[i])
    {
      IndependentEventsMembers(raw, pos, places, triggered, Enter(places[i].name));
      IndependentEventsMembers(raw, pos, places, triggered, Exit(places[i].name));
    }
  }

  /** Re-evaluating at the same position changes nothing and emits nothing. */
  lemma {:induction false} StepIdempotent(raw: Metric, pos: Coord, places: seq<Place>, triggered: set<string>)
    requires UniqueNames(places)
    ensures var once := Step(raw, pos, places, triggered).triggered;
            Step(raw, pos, places, once) == StepResult(once, [])
  {
    var once := Step(raw, pos, places, triggered).triggered;
    StepMatchesReference(raw, pos, places, triggered);
    StepMatchesReference(raw, pos, places, once);
    LastPlacesDecide(raw, pos, places, triggered);
    NoEventsWhenSettled(raw, pos, places, once);
  }

  /** When every place's name is triggered exactly when the player is inside
      it, a visit against that set emits nothing. */
  lemma {:induction false} NoEventsWhenSettled(raw: Metric, pos: Coord, places: seq<Place>, triggered: set<string>)
    requires forall i :: 0 <= i < |places| ==> (places[i].name in triggered <==> Inside(raw, pos, places[i]))
    ensures IndependentEvents(raw, pos, places, triggered) == []
    decreases |places|
  {
    if |places| > 0 {
      NoEventsWhenSettled(raw, pos, places[1..], triggered);
    }
  }

  /** The order in which the places are listed does not affect the new
      triggered set. */
  lemma {:induction false} StepOrderIrrelevant(raw: Metric, pos: Coord, places: seq<Place>, others: seq<Place>, triggered: set<string>)
    requires UniqueNames(places) && UniqueNames(others)
    requires forall p :: p in places <==> p in others
    ensures Step(raw, pos, places, triggered).triggered == Step(raw, pos, others, triggered).triggered
  {
    StepMatchesReference(raw, pos, places, triggered);
    StepMatchesReference(raw, pos, others, triggered);
    SameNames(places, others);
    SameInsideNames(raw, pos, places, others);
  }

  /** Two lists holding the same places have the same names. */
  lemma SameNames(places: seq<Place>, others: seq<Place>)
    requires forall p :: p in places <==> p in others
    ensures Names(places) == Names(others)
  {
    forall n | n in Names(places) ensures n in Names(others) {
      NamesMembers(places, n);
      NamesMembers(others, n);
      var i :| 0 <= i < |places| && places[i].name == n;
      assert places[i] in others;
    }
    forall n | n in Names(others) ensures n in Names(places) {
      NamesMembers(places, n);
      NamesMembers(others, n);
      var i :| 0 <= i < |others| && others[i].name == n;
      assert others[i] in places;
    }
  }

  /** Two lists holding the same places have the same inside names. */
  lemma SameInsideNames(raw: Metric, pos: Coord, places: seq<Place>, others: seq<Place>)
    requires forall p :: p in places <==> p in others
    ensures InsideNames(raw, pos, places) == InsideNames(raw, pos, others)
  {
    forall n | n in InsideNames(raw, pos, places) ensures n in InsideNames(raw, pos, others) {
      InsideNamesMembers(raw, pos, places, n);
      InsideNamesMembers(raw, pos, others, n);
      var i :| 0 <= i < |places| && places[i].name == n && Inside(raw, pos, places[i]);
      assert places[i] in others;
    }
    forall n | n in InsideNames(raw, pos, others) ensures n in InsideNames(raw, pos, places) {
      InsideNamesMembers(raw, pos, places, n);
      InsideNamesMembers(raw, pos, others, n);
      var i :| 0 <= i < |others| && others[i].name == n && Inside(raw, pos, others[i]);
      assert others[i] in places;
    }
  }

  /** A stream of position samples, each evaluated in turn against the
      set the previous samples left. The set carries no memory of earlier
      samples: after a non-empty track, the last place of each name is
      triggered exactly when the final sample lies inside it. */
  function Run(raw: Metric, track: seq<Coord>, places: seq<Place>, triggered: set<string>): (r: StepResult)
    ensures forall n :: n !in Names(places) ==> (n in r.triggered <==> n in triggered)
    ensures forall e :: e in r.events ==> e.name in Names(places)
    ensures |track| > 0 ==>
              forall i :: 0 <= i < |places| && LastOfName(places, i) ==>
                (places[i].name in r.triggered <==> Inside(raw, track[|track| - 1], places[i]))
    decreases |track|
  {
    if |track| == 0 then StepResult(triggered, [])
    else
      var before := Run(raw, track[..|track| - 1], places, triggered);
      var last := Step(raw, track[|track| - 1], places, before.triggered);
      LastPlacesDecide(raw, track[|track| - 1], places, before.triggered);
      StepResult(last.triggered, before.events + last.events)
  }

  /** For a single geofence that starts outside, the events along any track
      alternate Enter, Exit, Enter, ..., and the place is triggered exactly
      when an odd number of events has been emitted. */
  lemma {:induction false} SingleGeofenceAlternates(raw: Metric, track: seq<Coord>, p: Place, triggered: set<string>)
    requires p.name !in triggered
    ensures var r := Run(raw, track, [p], triggered);
            && (forall k :: 0 <= k < |r.events| ==>
                  r.events[k] == (if k % 2 == 0 then Enter(p.name) else Exit(p.name)))
            && (p.name in r.triggered <==> |r.events| % 2 == 1)
    decreases |track|
  {
    if |track| > 0 {
      var before := Run(raw, track[..|track| - 1], [p], triggered);
      SingleGeofenceAlternates(raw, track[..|track| - 1], p, triggered);
      var pos := track[|track| - 1];
      var last := Step(raw, pos, [p], before.triggered);
      assert [p][1..] == [];
      var v := Visit(raw, pos, p, before.triggered);
      assert Step(raw, pos, [], v.triggered) == StepResult(v.triggered, []);
      assert last == v;
    }
  }
}

=== FILE: monster.dfy ===
/** The monster simulation: a threat distance in [0, 10] that a periodic
    timer moves up when the player idles or strays far from every point of
    interest, and down otherwise. */
module Monster {
  import opened Geo

  /** The settings record, read once; values are taken as given numbers. */
  datatype Config = Config(
    updateIntervalSeconds: real,
    idleThresholdMinutes: real,
    farDistanceThresholdMeters: real,
    approachSpeed: real,
    retreatSpeed: real,
    maxDistance: real)

  /** The mutable part of the monster. Times are milliseconds since the
      epoch; `lastPosition` is `None` until the first effective tick. */
  datatype MonsterState = MonsterState(distance: real, lastMoveTime: int, lastPosition: Option<Coord>)

  /** What one tick produces: the new state and whether the "dark presence"
      warning is shown. */
  datatype TickResult = TickResult(state: MonsterState, warning: bool)

  /** Displacements up to this many metres are sensor jitter, not movement. */
  const NoiseFloorMetres: real := 2.0

  const MillisPerMinute: real := 60000.0

  /** The warning shows above this fraction of `maxDistance`. */
  const WarningFraction: real := 0.8

  predicate InRange(m: MonsterState) {
    0.0 <= m.distance <= ClampMetres
  }

  /** The monster as created when the page loads, `now` being that instant. */
  function Init(now: int): (m: MonsterState)
    ensures InRange(m) && m.distance == ClampMetres
    ensures m.lastPosition.None?
    ensures m.lastMoveTime == now
  {
    MonsterState(10.0, now, None)
  }

  /** The player moved since the last tick: there is a previous position and
      the displacement exceeds the noise floor. The clamp at 10 metres is
      above the floor, so only the raw distance matters. */
  predicate Moved(raw: Metric, player: Coord, last: Option<Coord>)
    ensures Moved(raw, player, last) <==> last.Some? && raw(player, last.value) > NoiseFloorMetres
  {
    last.Some? && Distance(raw, player, last.value) > NoiseFloorMetres
  }

  /** Minutes elapsed from `since` to `now`. */
  function IdleMinutes(now: int, since: int): (minutes: real)
    ensures minutes * MillisPerMinute == (now - since) as real
  {
    (now - since) as real / 1000.0 / 60.0
  }

  /** The distance to the closest point of interest, by a linear scan in
      list order; `None` (the scan's initial `Infinity`) when there is no
      place. */
  function NearestGoal(raw: Metric, pos: Coord, places: seq<Place>): (r: Option<real>)
    ensures r.None? <==> |places| == 0
    ensures r.Some? ==> forall i :: 0 <= i < |places| ==> r.value <= Distance(raw, pos, places[i].Centre())
    ensures r.Some? ==> exists i :: 0 <= i < |places| && r.value == Distance(raw, pos, places[i].Centre())
    decreases |places|
  {
    if |places| == 0 then None
    else
      var best := NearestGoal(raw, pos, places[..|places| - 1]);
      var d := Distance(raw, pos, places[|places| - 1].Centre());
      assert forall i :: 0 <= i < |places| - 1 ==> places[..|places| - 1][i] == places[i];
      if best.None? || d < best.value then Some(d) else best
  }

  /** Rule 2: the nearest goal is farther than the threshold. This holds
      exactly when every place is farther than the threshold, so it holds
      for an empty list and, because distances are clamped at 10, never
      holds for a non-empty list when the threshold is 10 or more. */
  predicate FarFromGoals(raw: Metric, pos: Coord, places: seq<Place>, threshold: real)
    ensures FarFromGoals(raw, pos, places, threshold) <==>
            forall i :: 0 <= i < |places| ==> Distance(raw, pos, places[i].Centre()) > threshold
    ensures |places| > 0 && threshold >= ClampMetres ==> !FarFromGoals(raw, pos, places, threshold)
  {
    match NearestGoal(raw, pos, places)
    case None => true
    case Some(nearest) => nearest > threshold
  }

  /** Whether this tick moves the monster closer: rule 1 (idle for longer
      than the threshold) or rule 2 (far from every goal). */
  predicate Approaching(raw: Metric, cfg: Config, player: Coord, places: seq<Place>, now: int, m: MonsterState)
    ensures Approaching(raw, cfg, player, places, now, m) <==>
            || ((m.lastPosition.None? || raw(player, m.lastPosition.value) <= NoiseFloorMetres)
                && (now - m.lastMoveTime) as real > cfg.idleThresholdMinutes * MillisPerMinute)
            || (forall i :: 0 <= i < |places| ==>
                  Distance(raw, player, places[i].Centre()) > cfg.farDistanceThresholdMeters)
  {
    var idle := !Moved(raw, player, m.lastPosition)
                && IdleMinutes(now, m.lastMoveTime) > cfg.idleThresholdMinutes;
    var lost := FarFromGoals(raw, player, places, cfg.farDistanceThresholdMeters);
    idle || lost
  }

  /** The new threat distance: up by `approachSpeed` capped at `maxDistance`,
      or down by `retreatSpeed` floored at 0, then clamped into [0, 10]. */
  function NextDistance(d: real, approaching: bool, cfg: Config): (r: real)
    ensures 0.0 <= r <= ClampMetres
    ensures approaching ==> r <= Max(0.0, cfg.maxDistance)
    ensures approaching && cfg.approachSpeed >= 0.0 && 0.0 <= d <= ClampMetres && d <= cfg.maxDistance ==> d <= r
    ensures approaching && cfg.approachSpeed > 0.0 && 0.0 <= d < ClampMetres && d < cfg.maxDistance ==> d < r
    ensures !approaching && cfg.retreatSpeed >= 0.0 && 0.0 <= d <= ClampMetres ==> r <= d
    ensures !approaching && cfg.retreatSpeed > 0.0 && 0.0 < d <= ClampMetres ==> r < d
    ensures !approaching && d - cfg.retreatSpeed <= 0.0 ==> r == 0.0
    // where no cap or floor bites, the distance moves by exactly the configured speed
    ensures approaching && 0.0 <= d + cfg.approachSpeed <= Min(cfg.maxDistance, ClampMetres) ==>
              r == d + cfg.approachSpeed
    ensures approaching && 0.0 <= cfg.maxDistance <= ClampMetres && cfg.maxDistance <= d + cfg.approachSpeed ==>
              r == cfg.maxDistance
    ensures approaching && ClampMetres <= cfg.maxDistance && ClampMetres <= d + cfg.approachSpeed ==>
              r == ClampMetres
    ensures !approaching && 0.0 <= d - cfg.retreatSpeed <= ClampMetres ==> r == d - cfg.retreatSpeed
  {
    var next := if approaching then Min(cfg.maxDistance, d + cfg.approachSpeed)
                else Max(0.0, d - cfg.retreatSpeed);
    Clamp(next)
  }

  /** One timer tick. Until the settings are loaded and a position has been
      seen, it does nothing. */
  function Tick(raw: Metric, config: Option<Config>, player: Option<Coord>, places: seq<Place>, now: int, m: MonsterState): (r: TickResult)
    ensures config.None? || player.None? ==> r == TickResult(m, false)
    ensures config.Some? && player.Some? ==> InRange(r.state)
    ensures config.Some? && player.Some? ==> r.state.lastPosition == player
    ensures config.Some? && player.Some? && Moved(raw, player.value, m.lastPosition) ==>
              r.state.lastMoveTime == now
    ensures config.Some? && player.Some? && !Moved(raw, player.value, m.lastPosition) ==>
              r.state.lastMoveTime == m.lastMoveTime
    ensures config.Some? && player.Some? ==>
              (r.warning <==> r.state.distance > config.value.maxDistance * WarningFraction)
    ensures config.Some? && player.Some? && InRange(m) && config.value.retreatSpeed >= 0.0
            && !Approaching(raw, config.value, player.value, places, now, m) ==>
              r.state.distance <= m.distance
    ensures config.Some? && player.Some? && InRange(m) && config.value.approachSpeed >= 0.0
            && m.distance <= config.value.maxDistance
            && Approaching(raw, config.value, player.value, places, now, m) ==>
              m.distance <= r.state.distance <= Max(0.0, config.value.maxDistance)
    ensures config.Some? && player.Some? ==>
              r.state.distance == NextDistance(m.distance, Approaching(raw, config.value, player.value, places, now, m), config.value)
    // approaching from above `maxDistance` pulls the monster down to it
    ensures config.Some? && player.Some? && Approaching(raw, config.value, player.value, places, now, m)
            && config.value.approachSpeed >= 0.0 && 0.0 <= config.value.maxDistance < m.distance ==>
              r.state.distance == Clamp(config.value.maxDistance)
  {
    if config.None? || player.None? then
      TickResult(m, false)
    else
      var cfg := config.value;
      var pos := player.value;
      var moved := Moved(raw, pos, m.lastPosition);
      var approaching := Approaching(raw, cfg, pos, places, now, m);
      var distance := NextDistance(m.distance, approaching, cfg);
      var lastMoveTime := if moved then now else m.lastMoveTime;
      TickResult(MonsterState(distance, lastMoveTime, Some(pos)), distance > cfg.maxDistance * WarningFraction)
  }

  /** The inputs a tick reads besides the monster itself. */
  datatype TickInput = TickInput(config: Option<Config>, player: Option<Coord>, now: int)

  /** A sequence of ticks, applied in order. Settings that never load (or
      a position never seen) leave the monster untouched; otherwise the
      distance stays in range and the movement record only ever holds a
      tick's time and position. */
  function RunTicks(raw: Metric, places: seq<Place>, inputs: seq<TickInput>, m: MonsterState): (r: MonsterState)
    ensures InRange(m) ==> InRange(r)
    ensures (forall k :: 0 <= k < |inputs| ==> inputs[k].config.None? || inputs[k].player.None?) ==> r == m
    ensures r.lastMoveTime == m.lastMoveTime || exists k :: 0 <= k < |inputs| && r.lastMoveTime == inputs[k].now
    ensures r.lastPosition == m.lastPosition || exists k :: 0 <= k < |inputs| && r.lastPosition == inputs[k].player
    decreases |inputs|
  {
    if |inputs| == 0 then m
    else
      var prefix := inputs[..|inputs| - 1];
      var before := RunTicks(raw, places, prefix, m);
      var last := inputs[|inputs| - 1];
      assert forall k :: 0 <= k < |prefix| ==> prefix[k] == inputs[k];
      Tick(raw, last.config, last.player, places, last.now, before).state
  }

  /** Every tick has settings and a position, and each position lies within
      the noise floor of the one before it (the first one of `last`, when
      there is a recorded position): the player only jitters. */
  predicate WithinNoise(raw: Metric, last: Option<Coord>, inputs: seq<TickInput>) {
    && (forall k :: 0 <= k < |inputs| ==> inputs[k].config.Some? && inputs[k].player.Some?)
    && (|inputs| > 0 && last.Some? ==> raw(inputs[0].player.value, last.value) <= NoiseFloorMetres)
    && (forall k :: 0 < k < |inputs| ==> raw(inputs[k].player.value, inputs[k - 1].player.value) <= NoiseFloorMetres)
  }

  /** A player whose successive positions stay within the noise floor of
      each other never refreshes the last-move time, so the idle clock
      keeps running however far the jitter drifts overall. */
  lemma {:induction false} StandingStillKeepsIdleClock(raw: Metric, places: seq<Place>, inputs: seq<TickInput>, m: MonsterState)
    requires WithinNoise(raw, m.lastPosition, inputs)
    ensures RunTicks(raw, places, inputs, m).lastMoveTime == m.lastMoveTime
    ensures |inputs| > 0 ==> RunTicks(raw, places, inputs, m).lastPosition == inputs[|inputs| - 1].player
    decreases |inputs|
  {
    if |inputs| > 0 {
      var prefix := inputs[..|inputs| - 1];
      assert forall k :: 0 <= k < |prefix| ==> prefix[k] == inputs[k];
      assert WithinNoise(raw, m.lastPosition, prefix);
      StandingStillKeepsIdleClock(raw, places, prefix, m);
    }
  }

  /** Under fixed settings with a non-negative approach speed, a jittering
      player who has idled past the threshold on every tick only ever sees
      the monster come closer, never beyond `maxDistance`. */
  lemma {:induction false} IdlePlayerIsApproached(raw: Metric, places: seq<Place>, cfg: Config, inputs: seq<TickInput>, m: MonsterState)
    requires cfg.approachSpeed >= 0.0
    requires InRange(m) && m.distance <= cfg.maxDistance
    requires WithinNoise(raw, m.lastPosition, inputs)
    requires forall k :: 0 <= k < |inputs| ==> inputs[k].config == Some(cfg)
    requires forall k :: 0 <= k < |inputs| ==>
               (inputs[k].now - m.lastMoveTime) as real > cfg.idleThresholdMinutes * MillisPerMinute
    ensures m.distance <= RunTicks(raw, places, inputs, m).distance <= cfg.maxDistance
    decreases |inputs|
  {
    if |inputs| > 0 {
      var prefix := inputs[..|inputs| - 1];
      assert forall k :: 0 <= k < |prefix| ==> prefix[k] == inputs[k];
      assert WithinNoise(raw, m.lastPosition, prefix);
      IdlePlayerIsApproached(raw, places, cfg, prefix, m);
      StandingStillKeepsIdleClock(raw, places, prefix, m);
      var before := RunTicks(raw, places, prefix, m);
      var last := inputs[|inputs| - 1];
      assert !Moved(raw, last.player.value, before.lastPosition);
      assert Approaching(raw, cfg, last.player.value, places, last.now, before);
    }
  }

  /** Under fixed settings with a non-negative retreat speed, a distance
      that starts at most `maxDistance` stays at most `maxDistance`:
      approaching caps it there and retreating only lowers it. */
  lemma {:induction false} RunTicksBelowMax(raw: Metric, places: seq<Place>, cfg: Config, inputs: seq<TickInput>, m: MonsterState)
    requires cfg.retreatSpeed >= 0.0
    requires InRange(m) && m.distance <= cfg.maxDistance
    requires forall k :: 0 <= k < |inputs| ==> inputs[k].config == Some(cfg)
    ensures InRange(RunTicks(raw, places, inputs, m))
    ensures RunTicks(raw, places, inputs, m).distance <= cfg.maxDistance
    decreases |inputs|
  {
    if |inputs| > 0 {
      var prefix := inputs[..|inputs| - 1];
      assert forall k :: 0 <= k < |prefix| ==> prefix[k] == inputs[k];
      RunTicksBelowMax(raw, places, cfg, prefix, m);
    }
  }

  /** The last of a run of idle, jittering ticks under fixed settings does
      not lower the distance the earlier ticks left. */
  lemma {:induction false} LastIdleTickClimbs(raw: Metric, places: seq<Place>, cfg: Config, inputs: seq<TickInput>, m: MonsterState)
    requires |inputs| > 0
    requires cfg.approachSpeed >= 0.0
    requires InRange(m) && m.distance <= cfg.maxDistance
    requires WithinNoise(raw, m.lastPosition, inputs)
    requires forall k :: 0 <= k < |inputs| ==> inputs[k].config == Some(cfg)
    requires forall k :: 0 <= k < |inputs| ==>
               (inputs[k].now - m.lastMoveTime) as real > cfg.idleThresholdMinutes * MillisPerMinute
    ensures ClimbsAt(RunTicks(raw, places, inputs[..|inputs| - 1], m).distance, RunTicks(raw, places, inputs, m).distance, cfg)
  {
    var prefix := inputs[..|inputs| - 1];
    assert forall k :: 0 <= k < |prefix| ==> prefix[k] == inputs[k];
    assert WithinNoise(raw, m.lastPosition, prefix);
    IdlePlayerIsApproached(raw, places, cfg, prefix, m);
    StandingStillKeepsIdleClock(raw, places, prefix, m);
    var before := RunTicks(raw, places, prefix, m);
    var last := inputs[|inputs| - 1];
    assert !Moved(raw, last.player.value, before.lastPosition);
    assert Approaching(raw, cfg, last.player.value, places, last.now, before);
  }

  /** Tick by tick under the hypotheses of `IdlePlayerIsApproached`: every
      tick leaves the monster at least as close as the tick before, and
      strictly closer while it is below both caps and the approach speed is
      positive. */
  lemma IdleTicksClimb(raw: Metric, places: seq<Place>, cfg: Config, inputs: seq<TickInput>, m: MonsterState)
    requires cfg.approachSpeed >= 0.0
    requires InRange(m) && m.distance <= cfg.maxDistance
    requires WithinNoise(raw, m.lastPosition, inputs)
    requires forall k :: 0 <= k < |inputs| ==> inputs[k].config == Some(cfg)
    requires forall k :: 0 <= k < |inputs| ==>
               (inputs[k].now - m.lastMoveTime) as real > cfg.idleThresholdMinutes * MillisPerMinute
    ensures forall j :: 0 < j <= |inputs| ==>
              ClimbsAt(RunTicks(raw, places, inputs[..j - 1], m).distance, RunTicks(raw, places, inputs[..j], m).distance, cfg)
  {
    forall j | 0 < j <= |inputs|
      ensures ClimbsAt(RunTicks(raw, places, inputs[..j - 1], m).distance, RunTicks(raw, places, inputs[..j], m).distance, cfg)
    {
      var run := inputs[..j];
      assert forall k :: 0 <= k < |run| ==> run[k] == inputs[k];
      assert WithinNoise(raw, m.lastPosition, run);
      assert run[..j - 1] == inputs[..j - 1];
      LastIdleTickClimbs(raw, places, cfg, run, m);
    }
  }

  /** One tick took the distance from `before` to `after` without lowering
      it, and raised it if it was below both caps with a positive speed. */
  predicate ClimbsAt(before: real, after: real, cfg: Config) {
    && before <= after
    && (cfg.approachSpeed > 0.0 && before < Min(cfg.maxDistance, ClampMetres) ==> before < after)
  }
}
